=== FILE: README.md ===
# LazyDSGenerator, modelled in Dafny

`LazyDSGenerator` turns a natural-language question about a dataset into a
generated Python function and returns what that function computes. It builds a
prompt from the question, a description of the data and the data's Python type.
It asks a language model for code and strips markdown code fences from the
reply. It writes the result to `generated.py`, imports it as the module
`generated` and calls its `fun_generated(input_data)`. `invoke` does this once
and lets any failure propagate. `invoke_with_tries` retries up to `n_tries`
times and falls back to a fixed sentinel answer.

The model has these modules, one per concern of `lazydsgen/lazydsgen.py`:

- `Strings`: Python's `str.replace` as `ReplaceAll`, with `Contains`/`OccursAt`
  to talk about substrings.
- `Fences`: the two-pass fence stripping applied to every reply before it is
  written.
- `Prompts`: `TEMPLATE_PROMPT_INSTRUCTIONS` and `generate_query`.
- `Slots`: the artifact slot and `_clean_cache`. The slot holds the contents of
  `generated.py` if that file exists. It also holds the source text of the
  module cached as `sys.modules['generated']` if one is cached.
- `Generator`: the session, one attempt, the answer dictionary, `invoke` and
  `invoke_with_tries`.
- `GeneratorProps`: lemmas relating the entry points to a reference run of
  attempts, and to each other.
- `EvictingRetry`: the retry loop with the clean-up its failure branch lacks
  (see Findings).

The language model and the generated function are oracles. `replies[i]` is
what the model does with the i-th request: it raises, its reply cannot be
written, or it returns raw text. `run(text)` is what importing a module with
source `text` and calling its `fun_generated` on the session's data does. It
either fails to import, raises, or returns a value. The slot keeps the text of
the cached module, so the model can show the source's stale-module reuse.
`import generated` binds an already cached module, whatever the file now holds.

Two behaviours of the code are easy to miss, and the model keeps both:

- The constructor takes an `n_tries` argument (`lazydsgen/lazydsgen.py:23`),
  but `:29` always sets `self.n_tries` to 4, so the argument has no effect.
- Both entry points call `_clean_cache` on entry (`:54`, `:84`) and again
  after a success (`:75`, `:103`). The `except` branch of `invoke_with_tries`
  (`:78-80`) does not call it, and neither does `invoke` when an exception
  escapes. A failed attempt therefore leaves its file and any cached module
  in place.

## Model

| member | source | states |
|---|---|---|
| Strings.ReplaceAll | lazydsgen/lazydsgen.py:65 | `str.replace` with a non-empty pattern produces only characters taken from the input or from the replacement |
| Strings.ReplaceAllAbsent | lazydsgen/lazydsgen.py:65 | replacing a pattern that does not occur in the text returns the text unchanged |
| Strings.ReplaceAllSingleOccurrence | lazydsgen/lazydsgen.py:45 | if the pattern cannot start inside the text before it or after it, `replace` substitutes exactly that one occurrence and copies the rest verbatim, whatever the replacement holds |
| Fences.StripFences | lazydsgen/lazydsgen.py:65 | the text written to `generated.py` contains no triple backtick, whatever the model replied |
| Fences.RemovingFencesLeavesNone | lazydsgen/lazydsgen.py:65 | after the second pass, `replace("```", "")`, no triple backtick is left, even where removing one brings backticks together; a leading non-backtick character is kept |
| Fences.StripFencesKeepsFenceFree | lazydsgen/lazydsgen.py:93 | text that contains no fence is written exactly as received |
| Fences.StripFencesIdempotent | lazydsgen/lazydsgen.py:65 | stripping already stripped text changes nothing |
| Fences.StripFencesKeepsPlainCode | lazydsgen/lazydsgen.py:93 | a reply without any backtick is written verbatim |
| Prompts.TypeRepr | lazydsgen/lazydsgen.py:45 | for a class with the plain `type` metaclass, `str(type(data))` is `<class '`, then the class's module-qualified name (`__module__` + `.` + `__qualname__`, bare for builtins) verbatim, then `'>`, and nothing else |
| Prompts.TypeReprNamesTheClass | lazydsgen/lazydsgen.py:45 | two classes give the same type text in the prompt exactly when their module-qualified names are equal |
| Prompts.InstantiatedTemplate | lazydsgen/lazydsgen.py:6-14 | the template has one placeholder; `replace("TYPE_OF_DATA", t)` puts `t` there and leaves the rest of the template intact, even when `t` itself contains the placeholder |
| Prompts.GenerateQuery | lazydsgen/lazydsgen.py:42-46 | the prompt is the question header, the question, a blank line, the description header, the description, then the template text before the placeholder, the data's type and the template text after it |
| Prompts.PromptMentionsInputs | lazydsgen/lazydsgen.py:42-46 | the prompt contains the question, the description and the data's module-qualified class name as substrings |
| Slots.RemoveFile | lazydsgen/lazydsgen.py:33-36 | `os.remove` raises exactly when no file exists; otherwise it removes the file and leaves the cached module alone |
| Slots.EvictModule | lazydsgen/lazydsgen.py:37-40 | `del sys.modules['generated']` raises exactly when no module is cached; otherwise it evicts the module and leaves the file alone |
| Slots.CleanCache | lazydsgen/lazydsgen.py:32-40 | `_clean_cache` leaves neither file nor cached module, from any slot, including ones where either is already absent; no error escapes |
| Generator.NewSession | lazydsgen/lazydsgen.py:19-29 | a new session keeps the data's type and description and has `n_tries` 4, whatever `n_tries` argument was passed |
| Generator.AttemptOnce | lazydsgen/lazydsgen.py:59-67 | generation and write failures leave the slot untouched. A reply is written fence-stripped. An already cached module stays bound whatever the file holds. From an uncached slot, an attempt succeeds exactly when the stripped reply runs and returns; a failed import leaves nothing cached and raises an import error, while a reply that imports stays cached whether its function returns or raises, and a raise is an execution error. With a module already cached, every failure is an execution error. A success returns the value of the module now cached and the raw reply |
| Generator.SuccessEnvelope | lazydsgen/lazydsgen.py:69-73 | the answer has key `result` holding the value; with metadata it also has exactly `code`, `input` and `prompt`, holding the raw reply, the question and the prompt; without metadata `result` is its only key |
| Generator.TryFrom | lazydsgen/lazydsgen.py:57-80 | the loop makes at most `n_tries` attempts. It stops only on a success, which is the reply of the last attempt made, or when the budget is spent. A success leaves the slot empty |
| Generator.InvokeWithTries | lazydsgen/lazydsgen.py:53-81 | at most `n_tries` requests. On success the slot is empty and the answer's keys are `result`, `code`, `input`, `prompt` (only `result` without metadata), with the raw reply, the question and the prompt built once from the question. On failure the answer is exactly `{"result": "I failed at my mission :("}` after `n_tries` attempts, even with metadata requested |
| Generator.Invoke | lazydsgen/lazydsgen.py:83-105 | one request only. It succeeds exactly when the reply, stripped, imports and returns. The answer is then the same envelope `invoke_with_tries` builds, after one attempt, with the slot empty. Otherwise it raises the error of the step that failed: generation, write, import or execution |
| GeneratorProps.TryFromFollowsAttempts | lazydsgen/lazydsgen.py:57-80 | from any point of a run in which all attempts so far failed, the loop ends at the first later attempt that succeeds, or exhausts the budget only when all attempts fail |
| GeneratorProps.FirstSuccessWins | lazydsgen/lazydsgen.py:54-80 | `invoke_with_tries` returns the value of the first attempt that succeeds. Attempts run one after another from the cleaned slot, each inheriting what the failed ones left. It answers the sentinel only when all `n_tries` attempts fail |
| GeneratorProps.TryFromUsesOnlyConsumedReplies | lazydsgen/lazydsgen.py:57-77 | the loop's outcome depends only on the replies it consumed |
| GeneratorProps.UsesOnlyConsumedReplies | lazydsgen/lazydsgen.py:67-77 | replies after the successful one are never requested: any oracle agreeing on the consumed replies gives the same answer, count and slot |
| GeneratorProps.InvokeAgreesWithFirstTry | lazydsgen/lazydsgen.py:83-105 | when `invoke` succeeds, `invoke_with_tries` on the same first reply returns the identical answer after one attempt; when `invoke` raises, `invoke_with_tries` does not succeed on its first attempt |
| GeneratorProps.StaleModuleFailsLaterAttempts | lazydsgen/lazydsgen.py:48-51 | while a module whose function raises stays cached, every remaining attempt fails, whatever the model replies |
| GeneratorProps.StaleModuleDefeatsRetries | lazydsgen/lazydsgen.py:78-80 | as written, if the first reply's function raises, `invoke_with_tries` spends all `n_tries` attempts and answers the sentinel, whatever the later replies are |
| EvictingRetry.TryFromEvicting | lazydsgen/lazydsgen.py:78-80 | with eviction after a failure, the loop ends with an empty slot on every path. A success is the raw reply of the last attempt made, and that reply's stripped text returns its value when run on its own |
| EvictingRetry.InvokeWithTriesEvicting | lazydsgen/lazydsgen.py:53-81 | the corrected entry point always returns with the slot empty. A success answers the value of a reply that succeeds on its own, with the same envelope shape. A failure answers the bare sentinel after `n_tries` attempts |
| EvictingRetry.TryFromEvictingSucceedsIffSomeReplyDoes | lazydsgen/lazydsgen.py:57-80 | with eviction, the loop succeeds exactly when some remaining reply within the budget succeeds on its own |
| EvictingRetry.TryFromEvictingSkipsOnlyFailures | lazydsgen/lazydsgen.py:57-80 | with eviction, every reply the loop passes over fails on its own |
| EvictingRetry.EvictingFirstFreshSuccessWins | lazydsgen/lazydsgen.py:53-81 | with eviction, the answer is a success exactly when some reply within the budget succeeds on its own, and every earlier reply failed on its own |
| EvictingRetry.StaleModuleCounterexample | lazydsgen/lazydsgen.py:78-80 | for the replies `def fun_generated(d): 1/0`, then `def fun_generated(d): return 1`, as written the answer is the sentinel |
| EvictingRetry.EvictionAnswersCounterexample | lazydsgen/lazydsgen.py:78-80 | for the same replies and `return_metadata=False`, with eviction the answer is `{"result": 1}`, the integer the second reply's function returns |

## Findings

| source | as written | input that shows it | evidently intended | confidence | as-written member | corrected member |
|---|---|---|---|---|---|---|
| lazydsgen/lazydsgen.py:78-80 | The `except` branch of `invoke_with_tries` only counts the failure. It does not call `_clean_cache`, so a module whose `fun_generated` raised stays in `sys.modules['generated']`. Each later `import generated` binds that module again instead of the newly written file. | replies `def fun_generated(d): 1/0`, then `def fun_generated(d): return 1`, then two generation failures: the answer is `{"result": "I failed at my mission :("}` | every attempt imports its own reply (clean the slot on every exit path), so with `return_metadata=False` the answer is `{"result": 1}`; with metadata it also holds `code`, `input` and `prompt` | not executed; assumes a generated function behaves the same when run twice on the same data | GeneratorProps.StaleModuleDefeatsRetries | EvictingRetry.InvokeWithTriesEvicting |

`EvictingRetry.StaleModuleCounterexample` and
`EvictingRetry.EvictionAnswersCounterexample` prove the two outcomes for this
input. `EvictingRetry.EvictingFirstFreshSuccessWins` proves the intended
property of the corrected loop. `Generator.InvokeWithTries` stays the model of
the code as written.

## Left out

- The OpenAI/langchain client (`ChatOpenAI`, `llm.predict`), the model name
  and the temperature are out of scope: they are a foreign network call and
  its configuration. The oracle `replies` stands in for them.
- Reading `OPENAI_API_KEY` at construction (`:30`) is not modelled. It is an
  environment lookup, and `NewSession` models only the fields the core uses.
- `verbose` output (`:60-61`, `:88-89`) and the retry notice (`:80`) are not
  modelled because they are print side effects only.
- Real file I/O and Python's import machinery are reduced to the slot. The
  cases below are not modelled:
  - a write that fails after `open` has created the file, since `WriteFail`
    leaves the slot as it was;
  - bytecode caches and path-finder caches;
  - removal failures other than a missing file, since `CleanCache` assumes an
    existing file can always be removed.
- The data passed to `fun_generated` is not modelled: it is opaque. Only its
  module-qualified class name (for the prompt) and the oracle `run` remain. `run` is a
  function, so a module run twice on the same data behaves the same. A failed
  run that mutates the data is not modelled.
- `run_generated_function` (`:48-51`) has no member of its own. It is part of
  `Generator.AttemptOnce`.
- Python can cache a module only after importing it. An oracle that reports an
  import error for a module already cached is a case Python cannot produce.
  `Generator.AttemptOnce` treats it as an execution error.
- Exceptions that are not `Exception`s (`KeyboardInterrupt`, `SystemExit`) are
  not modelled. The source's bare `except:` would swallow them in the retry
  loop.
- Generator.InvokeWithTries: requires the oracle to hold at least `n_tries`
  replies, one for each request the loop may make. The language model itself
  can always be asked again.
- Strings.ReplaceAll: its contract says only where the result's characters
  come from. The left-to-right, non-overlapping replacement is its definition.
  `ReplaceAllAbsent` and `ReplaceAllSingleOccurrence` state the consequences
  the core relies on. The optional `count` argument of `str.replace` is never
  used by the source and is not modelled.
- The answer dictionary's keys are a four-value datatype. `Key.Name()` gives
  the Python string each one stands for. A `map` has no order, so the dict's
  insertion order (`result`, `code`, `input`, `prompt`, `:69-73`) is not kept.
- The keyword defaults `verbose=False` and `return_metadata=True` (`:53`,
  `:83`) are not modelled: `returnMetadata` is an explicit argument of every
  entry point, and `verbose` only prints.
- Prompts.TypeRepr: models only classes whose metaclass is `type`. A metaclass
  that defines its own `__repr__` prints something else (an `Enum` class gives
  `<enum 'Color'>`), and no `dataType` yields that text.

=== FILE: evicting_retry.dfy ===
/**
 `invoke_with_tries` with the clean-up it evidently intends on every exit
 path: `_clean_cache()` is also called in the `except` branch, so every
 attempt starts from an empty slot and is judged on its own reply.
 */
module EvictingRetry {
  import opened Fences
  import opened Slots
  import opened Generator
  import opened GeneratorProps

  /** The retry loop from `t` failed attempts on, evicting after each failure. */
  function TryFromEvicting(s: Session, replies: seq<Reply>, run: string -> RunOutcome, slot: Slot, t: nat): (e: LoopEnd)
    requires t <= s.nTries <= |replies|
    requires slot.IsEmpty()
    ensures e.slot == EmptySlot
    ensures t <= e.attempts <= s.nTries
    ensures e.Exhausted? ==> e.attempts == s.nTries
    ensures e.Won? ==>
      && t < e.attempts
      && replies[e.attempts - 1] == Generated(e.code)
      && run(StripFences(e.code)) == Returned(e.value)
    decreases s.nTries - t
  {
    if t == s.nTries then
      Exhausted(t, slot)
    else
      match AttemptOnce(slot, replies[t], run)
      case Succeeded(code, v, loaded) => Won(t + 1, code, v, CleanCache(loaded))
      case Failed(_, left) => TryFromEvicting(s, replies, run, CleanCache(left), t + 1)
  }

  /**
   The corrected `invoke_with_tries`: the slot is empty on every return, and
   a success answers with the result of a reply that succeeds on its own.
   */
  function InvokeWithTriesEvicting(s: Session, question: string, returnMetadata: bool,
                                   replies: seq<Reply>, run: string -> RunOutcome, slot: Slot): (r: EntryResult)
    requires s.nTries <= |replies|
    ensures r.slot == EmptySlot
    ensures r.attempts <= s.nTries
    ensures !r.succeeded ==> r.attempts == s.nTries && r.envelope == FailureEnvelope
    ensures r.succeeded ==>
      && 1 <= r.attempts
      && replies[r.attempts - 1].Generated?
      && run(StripFences(replies[r.attempts - 1].code)).Returned?
      && r.envelope == SuccessEnvelope(run(StripFences(replies[r.attempts - 1].code)).value,
                                       replies[r.attempts - 1].code, question, Query(s, question),
                                       returnMetadata)
  {
    Answer(TryFromEvicting(s, replies, run, CleanCache(slot), 0), question, Query(s, question), returnMetadata)
  }

  /** Every reply in `replies[lo..hi]` fails on its own. */
  ghost predicate FreshFailures(replies: seq<Reply>, run: string -> RunOutcome, lo: int, hi: int)
    requires 0 <= lo && hi <= |replies|
  {
    forall j :: lo <= j < hi ==> FreshFailure(replies[j], run).Some?
  }

  lemma {:induction false} TryFromEvictingSucceedsIffSomeReplyDoes(s: Session, replies: seq<Reply>,
                                                                    run: string -> RunOutcome, slot: Slot, t: nat)
    requires t <= s.nTries <= |replies|
    requires slot.IsEmpty()
    ensures TryFromEvicting(s, replies, run, slot, t).Won?
        <==> exists k :: t <= k < s.nTries && FreshFailure(replies[k], run).None?
    decreases s.nTries - t
  {
    if t < s.nTries {
      var a := AttemptOnce(slot, replies[t], run);
      assert a.Succeeded? <==> FreshFailure(replies[t], run).None?;
      if a.Failed? {
        TryFromEvictingSucceedsIffSomeReplyDoes(s, replies, run, CleanCache(a.slot), t + 1);
        if exists k :: t <= k < s.nTries && FreshFailure(replies[k], run).None? {
          var k :| t <= k < s.nTries && FreshFailure(replies[k], run).None?;
          assert k != t;
        }
      }
    }
  }

  lemma {:induction false} TryFromEvictingSkipsOnlyFailures(s: Session, replies: seq<Reply>,
                                                            run: string -> RunOutcome, slot: Slot, t: nat)
    requires t <= s.nTries <= |replies|
    requires slot.IsEmpty()
    ensures FreshFailures(replies, run, t, TryFromEvicting(s, replies, run, slot, t).attempts - 1)
    decreases s.nTries - t
  {
    if t < s.nTries {
      var a := AttemptOnce(slot, replies[t], run);
      if a.Failed? {
        assert FreshFailure(replies[t], run).Some?;
        var rest := TryFromEvicting(s, replies, run, CleanCache(a.slot), t + 1);
        assert TryFromEvicting(s, replies, run, slot, t) == rest;
        TryFromEvictingSkipsOnlyFailures(s, replies, run, CleanCache(a.slot), t + 1);
      }
    }
  }

  /**
   With eviction, each attempt depends on its own reply only: the run
   succeeds exactly when some reply within the budget succeeds on its own,
   and every reply before the one answered failed on its own.
   */
  lemma EvictingFirstFreshSuccessWins(s: Session, question: string, returnMetadata: bool,
                                      replies: seq<Reply>, run: string -> RunOutcome, slot: Slot)
    requires s.nTries <= |replies|
    ensures var r := InvokeWithTriesEvicting(s, question, returnMetadata, replies, run, slot);
      && (r.succeeded <==> exists k :: 0 <= k < s.nTries && FreshFailure(replies[k], run).None?)
      && FreshFailures(replies, run, 0, r.attempts - 1)
  {
    TryFromEvictingSucceedsIffSomeReplyDoes(s, replies, run, CleanCache(slot), 0);
    TryFromEvictingSkipsOnlyFailures(s, replies, run, CleanCache(slot), 0);
  }

  /** A reply whose function raises, and one whose function returns. */
  const BrokenReply: string := "def fun_generated(d): 1/0"
  const FixedReply: string := "def fun_generated(d): return 1"

  /** Running the generated module on the session's data: only the fixed one returns. */
  function DemoRun(text: string): RunOutcome {
    if text == FixedReply then Returned(Int(1)) else Raised
  }

  /** The two replies of the counterexample, run on their own. */
  lemma DemoRepliesBehave()
    ensures DemoRun(StripFences(BrokenReply)) == Raised
    ensures DemoRun(StripFences(FixedReply)) == Returned(Int(1))
  {
    StripFencesKeepsPlainCode(BrokenReply);
    StripFencesKeepsPlainCode(FixedReply);
    assert BrokenReply != FixedReply by {
      assert |BrokenReply| != |FixedReply|;
    }
  }

  /**
   The input that shows the stale module, as written: the first reply's
   function raises and the second's returns the integer `1`, yet the answer is the
   failure sentinel.
   */
  lemma StaleModuleCounterexample(dataType: string, desc: string, question: string, slot: Slot)
    ensures InvokeWithTries(NewSession(dataType, desc, 4), question, false,
                            [Generated(BrokenReply), Generated(FixedReply), GenFail, GenFail],
                            DemoRun, slot).envelope == FailureEnvelope
  {
    DemoRepliesBehave();
    StaleModuleDefeatsRetries(NewSession(dataType, desc, 4), question, false,
                              [Generated(BrokenReply), Generated(FixedReply), GenFail, GenFail], DemoRun, slot);
  }

  /** The same input with eviction on failure: the answer is `{"result": 1}`, the integer the second reply returns. */
  lemma EvictionAnswersCounterexample(dataType: string, desc: string, question: string, slot: Slot)
    ensures InvokeWithTriesEvicting(NewSession(dataType, desc, 4), question, false,
                                    [Generated(BrokenReply), Generated(FixedReply), GenFail, GenFail],
                                    DemoRun, slot).envelope == map[ResultKey := Int(1)]
  {
    var s := NewSession(dataType, desc, 4);
    var replies := [Generated(BrokenReply), Generated(FixedReply), GenFail, GenFail];
    DemoRepliesBehave();
    var e := TryFromEvicting(s, replies, DemoRun, CleanCache(slot), 0);
    var a0 := AttemptOnce(CleanCache(slot), replies[0], DemoRun);
    assert a0.Failed?;
    assert e == TryFromEvicting(s, replies, DemoRun, CleanCache(a0.slot), 1);
    var a1 := AttemptOnce(CleanCache(a0.slot), replies[1], DemoRun);
    assert a1.Succeeded? && a1.value == Int(1);
    assert e.Won? && e.value == Int(1);
    assert SuccessEnvelope(Int(1), FixedReply, question, Query(s, question), false).Keys == {ResultKey};
  }
}

=== FILE: fences.dfy ===
/**
 Removal of markdown code fences from generated text before it is written
 to the artifact file: `code.replace("```python", "").replace("```", "")`.
 */
module Fences {
  import opened Strings

  const Fence: string := "```"
  const PythonFence: string := "```python"

  /** Drops opening `python` fences first, then every remaining triple backtick. */
  function StripFences(code: string): (r: string)
    ensures !Contains(r, Fence)
  {
    var unopened := ReplaceAll(code, PythonFence, "");
    RemovingFencesLeavesNone(unopened);
    ReplaceAll(unopened, Fence, "")
  }

  /**
   Prepending one character to fence-free text yields fence-free text unless
   it is a backtick placed before two more.
   */
  lemma ConsKeepsFenceFree(c: char, u: string)
    requires !Contains(u, Fence)
    requires c == '`' && |u| >= 2 ==> u[0] != '`' || u[1] != '`'
    ensures !Contains([c] + u, Fence)
  {
    var s := [c] + u;
    forall i | 0 <= i
      ensures !OccursAt(s, Fence, i)
    {
      if i == 0 {
        if |s| >= 3 {
          assert s[..3][0] == c && s[..3][1] == u[0] && s[..3][2] == u[1];
        }
      } else if i + 3 <= |s| {
        assert s[i..i + 3] == u[i - 1..i + 2];
        assert !OccursAt(u, Fence, i - 1);
      }
    }
  }

  /**
   After `replace("```", "")` no triple backtick is left: each maximal run
   of backticks loses its leading multiples of three and keeps at most two.
   The second postcondition says a leading non-backtick is kept as is.
   */
  lemma {:induction false} RemovingFencesLeavesNone(s: string)
    ensures !Contains(ReplaceAll(s, Fence, ""), Fence)
    ensures |s| > 0 && s[0] != '`' ==>
      ReplaceAll(s, Fence, "") == [s[0]] + ReplaceAll(s[1..], Fence, "")
    decreases |s|
  {
    var r := ReplaceAll(s, Fence, "");
    if |s| < 3 {
      assert r == s;
      if |s| > 0 {
        assert s == [s[0]] + s[1..];
      }
      forall i | 0 <= i
        ensures !OccursAt(r, Fence, i)
      {
      }
    } else if s[..3] == Fence {
      RemovingFencesLeavesNone(s[3..]);
      assert r == ReplaceAll(s[3..], Fence, "");
    } else {
      var u := ReplaceAll(s[1..], Fence, "");
      assert r == [s[0]] + u;
      RemovingFencesLeavesNone(s[1..]);
      if s[0] == '`' && |u| >= 2 {
        if s[1] == '`' {
          assert s[2] != '`' by {
            assert s[..3][0] == s[0] && s[..3][1] == s[1] && s[..3][2] == s[2];
          }
          var w := s[1..];
          assert w[1..] == s[2..];
          RemovingFencesLeavesNone(s[2..]);
          if |w| >= 3 {
            assert w[..3][1] == s[2];
            assert u == [w[0]] + ReplaceAll(s[2..], Fence, "");
          } else {
            assert u == w;
          }
          assert u[1] == s[2];
        }
      }
      ConsKeepsFenceFree(s[0], u);
    }
  }

  /** Text holding an opening `python` fence holds a plain fence. */
  lemma PythonFenceHoldsFence(t: string)
    requires Contains(t, PythonFence)
    ensures Contains(t, Fence)
  {
    var i :| OccursAt(t, PythonFence, i);
    assert t[i..i + 3] == t[i..i + 9][..3];
    assert OccursAt(t, Fence, i);
  }

  /** Text without fences passes through unchanged. */
  lemma StripFencesKeepsFenceFree(t: string)
    requires !Contains(t, Fence)
    ensures StripFences(t) == t
  {
    if Contains(t, PythonFence) {
      PythonFenceHoldsFence(t);
    }
    ReplaceAllAbsent(t, PythonFence, "");
    ReplaceAllAbsent(t, Fence, "");
  }

  /** Stripping twice is stripping once. */
  lemma StripFencesIdempotent(code: string)
    ensures StripFences(StripFences(code)) == StripFences(code)
  {
    StripFencesKeepsFenceFree(StripFences(code));
  }

  /** Code without any backtick is written exactly as generated. */
  lemma StripFencesKeepsPlainCode(code: string)
    requires '`' !in code
    ensures StripFences(code) == code
  {
    forall i | 0 <= i
      ensures !OccursAt(code, Fence, i)
    {
      if i + 3 <= |code| {
        assert code[i..i + 3][0] == code[i] != Fence[0];
      }
    }
    StripFencesKeepsFenceFree(code);
  }
}

=== FILE: generator.dfy ===
/**
 The `LazyDSGenerator` class: a session, one attempt of
 generate, write, import and run, and the two entry points `invoke` and
 `invoke_with_tries`.

 The language model and the generated function are oracles. `replies[i]` is
 what the model does with the i-th request. `run(text)` is what importing a
 module with source `text` and calling its `fun_generated` on the session's
 input data does; it is a function, so running the same module text on the
 same data twice behaves the same both times.
 */
module Generator {
  import opened Wrappers
  import opened Fences
  import opened Prompts
  import opened Slots

  /** A Python object: a string, an integer, or any other object known only by its identity. */
  datatype Value = Str(s: string) | Int(i: int) | Object(id: nat)

  /**
   A `LazyDSGenerator`: the module-qualified class name of its input data, its description of
   that data, and its attempt budget `n_tries`.
   */
  datatype Session = Session(dataType: string, desc: string, nTries: nat)

  /** The attempt budget every session is given. */
  const HardCodedTries: nat := 4

  /**
   `LazyDSGenerator(input_data, desc, model_name, temperature, n_tries)`:
   the `n_tries` argument is accepted and then ignored.
   */
  function NewSession(dataType: string, desc: string, nTries: int): (s: Session)
    ensures s.dataType == dataType && s.desc == desc
    ensures s.nTries == 4
  {
    Session(dataType, desc, HardCodedTries)
  }

  /** `generate_query(text)` of a session. */
  function Query(s: Session, question: string): string {
    GenerateQuery(question, s.desc, s.dataType)
  }

  /** What the language model does with one request. */
  datatype Reply =
    | GenFail                 // `llm.predict` raised
    | WriteFail               // `generated.py` could not be opened for writing
    | Generated(code: string) // the raw text of the reply

  /**
   What importing a module text and calling its `fun_generated(input_data)`
   does. `ImportFailed` covers every failing `import`: a syntax error, a
   missing library, a raising top level.
   */
  datatype RunOutcome = ImportFailed | Raised | Returned(value: Value)

  /** The step at which an attempt raised. */
  datatype ErrorKind = GenerationError | WriteError | ImportError | ExecutionError

  /** How one attempt ended, and the slot it left behind. */
  datatype Attempt =
    | Failed(kind: ErrorKind, slot: Slot)
    | Succeeded(code: string, value: Value, slot: Slot)
  {
    function SlotAfter(): Slot {
      match this
      case Failed(_, s) => s
      case Succeeded(_, _, s) => s
    }
  }

  /**
   Lines 59-67 of `invoke_with_tries` (and 87-95 of `invoke`): ask the model,
   write the fence-stripped reply to `generated.py`, `import generated`, call
   `fun_generated`. A module already cached under `generated` is what the
   import binds, whatever the file now holds; a failed import caches nothing,
   while a module whose `fun_generated` raises stays cached.
   */
  function AttemptOnce(slot: Slot, reply: Reply, run: string -> RunOutcome): (a: Attempt)
    ensures reply.GenFail? ==> a == Failed(GenerationError, slot)
    ensures reply.WriteFail? ==> a == Failed(WriteError, slot)
    ensures reply.Generated? ==> a.SlotAfter().file == Some(StripFences(reply.code))
    ensures reply.Generated? && slot.cached.Some? ==> a.SlotAfter().cached == slot.cached
    ensures reply.Generated? && slot.cached.None? ==>
      (a.Succeeded? <==> run(StripFences(reply.code)).Returned?)
    ensures reply.Generated? && slot.cached.None? ==>
      a.SlotAfter().cached == (if run(StripFences(reply.code)).ImportFailed? then None else Some(StripFences(reply.code)))
    ensures reply.Generated? && slot.cached.None? && a.Failed? ==>
      a.kind == (if run(StripFences(reply.code)).ImportFailed? then ImportError else ExecutionError)
    ensures reply.Generated? && slot.cached.Some? && a.Failed? ==> a.kind == ExecutionError
    ensures a.Succeeded? ==>
      reply == Generated(a.code) && a.slot.cached.Some? && run(a.slot.cached.value) == Returned(a.value)
  {
    match reply
    case GenFail => Failed(GenerationError, slot)
    case WriteFail => Failed(WriteError, slot)
    case Generated(code) =>
      var text := StripFences(code);
      var written := slot.(file := Some(text));
      if slot.cached.None? && run(text).ImportFailed? then
        Failed(ImportError, written)
      else
        var bound := if slot.cached.Some? then slot.cached.value else text;
        var loaded := written.(cached := Some(bound));
        match run(bound)
        case Returned(v) => Succeeded(code, v, loaded)
        case _ => Failed(ExecutionError, loaded)
  }

  /** The four keys an answer dictionary can hold. */
  datatype Key = ResultKey | CodeKey | InputKey | PromptKey {
    /** The Python string the key stands for. */
    function Name(): string {
      match this
      case ResultKey => "result"
      case CodeKey => "code"
      case InputKey => "input"
      case PromptKey => "prompt"
    }
  }

  /** The answer dictionary. */
  type Envelope = map<Key, Value>

  const FailureSentinel: string := "I failed at my mission :("

  /** `{"result": "I failed at my mission :("}`. */
  const FailureEnvelope: Envelope := map[ResultKey := Str(FailureSentinel)]

  /**
   `answer` after a successful attempt: the function's result, and with
   `return_metadata` the raw reply (fences included), the question and the
   prompt.
   */
  function SuccessEnvelope(value: Value, code: string, question: string, prompt: string,
                           returnMetadata: bool): (e: Envelope)
    ensures e.Keys == if returnMetadata then {ResultKey, CodeKey, InputKey, PromptKey} else {ResultKey}
    ensures e[ResultKey] == value
    ensures returnMetadata ==>
      e[CodeKey] == Str(code) && e[InputKey] == Str(question) && e[PromptKey] == Str(prompt)
  {
    var answer := map[ResultKey := value];
    if returnMetadata then
      answer[CodeKey := Str(code)][InputKey := Str(question)][PromptKey := Str(prompt)]
    else
      answer
  }

  /**
   What an entry point returns, how many requests it made, the slot it left,
   and whether the envelope holds an attempt's result (Python cannot tell a
   result equal to the sentinel string from the sentinel; the model can).
   */
  datatype EntryResult = EntryResult(envelope: Envelope, attempts: nat, slot: Slot, succeeded: bool)

  /** How the retry loop ended: after the attempt that succeeded, or with the budget spent. */
  datatype LoopEnd =
    | Won(attempts: nat, code: string, value: Value, slot: Slot)
    | Exhausted(attempts: nat, slot: Slot)

  /**
   The `while t < self.n_tries` loop of `invoke_with_tries` from `t` failed
   attempts on. A success cleans the slot and leaves the loop; a failure only
   counts (the `except` branch does not clean the slot).
   */
  function TryFrom(s: Session, replies: seq<Reply>, run: string -> RunOutcome, slot: Slot, t: nat): (e: LoopEnd)
    requires t <= s.nTries <= |replies|
    ensures t <= e.attempts <= s.nTries
    ensures e.Exhausted? ==> e.attempts == s.nTries
    ensures e.Won? ==> t < e.attempts && replies[e.attempts - 1] == Generated(e.code) && e.slot == EmptySlot
    decreases s.nTries - t
  {
    if t == s.nTries then
      Exhausted(t, slot)
    else
      match AttemptOnce(slot, replies[t], run)
      case Succeeded(code, v, loaded) => Won(t + 1, code, v, CleanCache(loaded))
      case Failed(_, left) => TryFrom(s, replies, run, left, t + 1)
  }

  /** The answer `invoke_with_tries` returns once its loop has ended. */
  function Answer(e: LoopEnd, question: string, prompt: string, returnMetadata: bool): EntryResult {
    match e
    case Won(n, code, v, left) => EntryResult(SuccessEnvelope(v, code, question, prompt, returnMetadata), n, left, true)
    case Exhausted(n, left) => EntryResult(FailureEnvelope, n, left, false)
  }

  /**
   `invoke_with_tries(question, verbose, return_metadata)`: clean the slot,
   build the prompt once, then try at most `n_tries` times. The first
   success returns its envelope with the slot emptied; when every attempt
   fails the answer is the bare sentinel, metadata or not.
   */
  function InvokeWithTries(s: Session, question: string, returnMetadata: bool,
                           replies: seq<Reply>, run: string -> RunOutcome, slot: Slot): (r: EntryResult)
    requires s.nTries <= |replies|
    ensures r.attempts <= s.nTries
    ensures !r.succeeded ==> r.attempts == s.nTries && r.envelope == FailureEnvelope
    ensures r.succeeded ==>
      && 1 <= r.attempts
      && r.slot == EmptySlot
      && replies[r.attempts - 1].Generated?
      && ResultKey in r.envelope
      && r.envelope.Keys == (if returnMetadata then {ResultKey, CodeKey, InputKey, PromptKey} else {ResultKey})
      && (returnMetadata ==>
            && r.envelope[CodeKey] == Str(replies[r.attempts - 1].code)
            && r.envelope[InputKey] == Str(question)
            && r.envelope[PromptKey] == Str(Query(s, question)))
  {
    Answer(TryFrom(s, replies, run, CleanCache(slot), 0), question, Query(s, question), returnMetadata)
  }

  /** The exception `invoke` lets escape, and the slot it leaves behind. */
  datatype Raise = Raise(kind: ErrorKind, slot: Slot)

  /** The step of a fresh attempt at which `reply` makes it raise, if any. */
  function FreshFailure(reply: Reply, run: string -> RunOutcome): Option<ErrorKind> {
    match reply
    case GenFail => Some(GenerationError)
    case WriteFail => Some(WriteError)
    case Generated(code) =>
      match run(StripFences(code))
      case ImportFailed => Some(ImportError)
      case Raised => Some(ExecutionError)
      case Returned(_) => None
  }

  /**
   `invoke(question, verbose, return_metadata)`: clean the slot, build the
   prompt, make exactly one attempt. Success returns the same envelope as
   `invoke_with_tries` and empties the slot; any failure propagates, and the
   slot is left as the failing step left it.
   */
  function Invoke(s: Session, question: string, returnMetadata: bool,
                  reply: Reply, run: string -> RunOutcome, slot: Slot): (r: Result<EntryResult, Raise>)
    ensures r.Success? <==> FreshFailure(reply, run).None?
    ensures r.Failure? ==> r.error.kind == FreshFailure(reply, run).value
    ensures r.Success? ==>
      && reply.Generated?
      && r.value.attempts == 1
      && r.value.succeeded
      && r.value.slot == EmptySlot
      && r.value.envelope == SuccessEnvelope(run(StripFences(reply.code)).value, reply.code,
                                             question, Query(s, question), returnMetadata)
  {
    var prompt := Query(s, question);
    match AttemptOnce(CleanCache(slot), reply, run)
    case Succeeded(code, v, loaded) =>
      Success(EntryResult(SuccessEnvelope(v, code, question, prompt, returnMetadata), 1, CleanCache(loaded), true))
    case Failed(kind, left) =>
      Failure(Raise(kind, left))
  }
}

=== FILE: generator_props.dfy ===
/** Properties relating the entry points of `LazyDSGenerator` to each other and to its attempts. */
module GeneratorProps {
  import opened Wrappers
  import opened Fences
  import opened Slots
  import opened Generator

  /**
   Reference semantics of a run of attempts: the slot left after attempts
   `0 .. k-1`, run one after another from `slot`, when every one of them
   failed; None when one of them succeeded.
   */
  function SlotAfterFailures(slot: Slot, replies: seq<Reply>, run: string -> RunOutcome, k: nat): Option<Slot>
    requires k <= |replies|
  {
    if k == 0 then Some(slot)
    else
      match SlotAfterFailures(slot, replies, run, k - 1)
      case None => None
      case Some(before) =>
        match AttemptOnce(before, replies[k - 1], run)
        case Failed(_, left) => Some(left)
        case Succeeded(_, _, _) => None
  }

  /** The loop ended at the first attempt that succeeds in the reference run of attempts. */
  ghost predicate StopsAtFirstSuccess(e: LoopEnd, s: Session, replies: seq<Reply>, run: string -> RunOutcome,
                                      start: Slot)
    requires e.attempts <= s.nTries <= |replies|
  {
    match e
    case Won(n, code, v, _) =>
      && 1 <= n
      && SlotAfterFailures(start, replies, run, n - 1).Some?
      && AttemptOnce(SlotAfterFailures(start, replies, run, n - 1).value, replies[n - 1], run).Succeeded?
      && AttemptOnce(SlotAfterFailures(start, replies, run, n - 1).value, replies[n - 1], run).value == v
    case Exhausted(_, _) =>
      SlotAfterFailures(start, replies, run, s.nTries).Some?
  }

  lemma {:induction false} TryFromFollowsAttempts(s: Session, replies: seq<Reply>, run: string -> RunOutcome,
                                                  start: Slot, slot: Slot, t: nat)
    requires t <= s.nTries <= |replies|
    requires SlotAfterFailures(start, replies, run, t) == Some(slot)
    ensures StopsAtFirstSuccess(TryFrom(s, replies, run, slot, t), s, replies, run, start)
    decreases s.nTries - t
  {
    if t < s.nTries {
      match AttemptOnce(slot, replies[t], run)
      case Succeeded(_, _, _) =>
      case Failed(_, left) =>
        assert SlotAfterFailures(start, replies, run, t + 1) == Some(left);
        TryFromFollowsAttempts(s, replies, run, start, left, t + 1);
    }
  }

  /**
   `invoke_with_tries` returns the value of the first attempt that succeeds,
   counted from the cleaned slot with each failed attempt's leftovers carried
   into the next; it gives up only when all `n_tries` attempts have failed.
   */
  lemma FirstSuccessWins(s: Session, question: string, returnMetadata: bool,
                         replies: seq<Reply>, run: string -> RunOutcome, slot: Slot)
    requires s.nTries <= |replies|
    ensures var e := TryFrom(s, replies, run, CleanCache(slot), 0);
      && StopsAtFirstSuccess(e, s, replies, run, CleanCache(slot))
      && InvokeWithTries(s, question, returnMetadata, replies, run, slot)
         == Answer(e, question, Query(s, question), returnMetadata)
  {
    TryFromFollowsAttempts(s, replies, run, CleanCache(slot), CleanCache(slot), 0);
  }

  lemma {:induction false} TryFromUsesOnlyConsumedReplies(s: Session, replies: seq<Reply>, other: seq<Reply>,
                                                          run: string -> RunOutcome, slot: Slot, t: nat)
    requires t <= s.nTries <= |replies| && s.nTries <= |other|
    requires var e := TryFrom(s, replies, run, slot, t);
      replies[t..e.attempts] == other[t..e.attempts]
    ensures TryFrom(s, other, run, slot, t) == TryFrom(s, replies, run, slot, t)
    decreases s.nTries - t
  {
    if t < s.nTries {
      var e := TryFrom(s, replies, run, slot, t);
      assert replies[t] == replies[t..e.attempts][0] == other[t];
      match AttemptOnce(slot, replies[t], run)
      case Succeeded(_, _, _) =>
      case Failed(_, left) =>
        assert replies[t + 1..e.attempts] == replies[t..e.attempts][1..];
        assert other[t + 1..e.attempts] == other[t..e.attempts][1..];
        TryFromUsesOnlyConsumedReplies(s, replies, other, run, left, t + 1);
    }
  }

  /**
   Replies after the one that succeeded are never requested: any oracle that
   agrees on the consumed replies gives the same run.
   */
  lemma UsesOnlyConsumedReplies(s: Session, question: string, returnMetadata: bool,
                                replies: seq<Reply>, other: seq<Reply>, run: string -> RunOutcome, slot: Slot)
    requires s.nTries <= |replies| && s.nTries <= |other|
    requires var r := InvokeWithTries(s, question, returnMetadata, replies, run, slot);
      replies[..r.attempts] == other[..r.attempts]
    ensures InvokeWithTries(s, question, returnMetadata, other, run, slot)
         == InvokeWithTries(s, question, returnMetadata, replies, run, slot)
  {
    var e := TryFrom(s, replies, run, CleanCache(slot), 0);
    assert e.attempts == InvokeWithTries(s, question, returnMetadata, replies, run, slot).attempts;
    assert replies[0..e.attempts] == replies[..e.attempts];
    assert other[0..e.attempts] == other[..e.attempts];
    TryFromUsesOnlyConsumedReplies(s, replies, other, run, CleanCache(slot), 0);
  }

  /**
   `invoke` and the first attempt of `invoke_with_tries` agree: when `invoke`
   succeeds, `invoke_with_tries` stops after that same attempt with the same
   envelope and slot; when it raises, the retrying entry point carries on.
   */
  lemma InvokeAgreesWithFirstTry(s: Session, question: string, returnMetadata: bool,
                                 replies: seq<Reply>, run: string -> RunOutcome, slot: Slot)
    requires 1 <= s.nTries <= |replies|
    ensures var single := Invoke(s, question, returnMetadata, replies[0], run, slot);
      var retried := InvokeWithTries(s, question, returnMetadata, replies, run, slot);
      && (single.Success? ==> retried == single.value)
      && (single.Failure? ==> !(retried.succeeded && retried.attempts == 1))
  {
  }

  lemma {:induction false} StaleModuleFailsLaterAttempts(s: Session, replies: seq<Reply>, run: string -> RunOutcome,
                                                         slot: Slot, t: nat)
    requires t <= s.nTries <= |replies|
    requires slot.cached.Some? && run(slot.cached.value).Raised?
    ensures TryFrom(s, replies, run, slot, t).Exhausted?
    decreases s.nTries - t
  {
    if t < s.nTries {
      var a := AttemptOnce(slot, replies[t], run);
      assert a.Failed? && a.slot.cached == slot.cached;
      StaleModuleFailsLaterAttempts(s, replies, run, a.slot, t + 1);
    }
  }

  /**
   As written, a first reply whose `fun_generated` raises leaves its module
   cached; every later `import generated` binds that module again, so every
   later attempt raises too and the sentinel comes back, whatever the later
   replies are.
   */
  lemma StaleModuleDefeatsRetries(s: Session, question: string, returnMetadata: bool,
                                  replies: seq<Reply>, run: string -> RunOutcome, slot: Slot)
    requires 1 <= s.nTries <= |replies|
    requires replies[0].Generated? && run(StripFences(replies[0].code)).Raised?
    ensures InvokeWithTries(s, question, returnMetadata, replies, run, slot).envelope == FailureEnvelope
    ensures InvokeWithTries(s, question, returnMetadata, replies, run, slot).attempts == s.nTries
  {
    var a := AttemptOnce(CleanCache(slot), replies[0], run);
    assert a.slot.cached == Some(StripFences(replies[0].code));
    StaleModuleFailsLaterAttempts(s, replies, run, a.slot, 1);
  }
}

=== FILE: prompts.dfy ===
/**
 The prompt sent to the code-generation model (`generate_query` and
 `TEMPLATE_PROMPT_INSTRUCTIONS` of lazydsgen/lazydsgen.py).
 */
module Prompts {
  import opened Strings

  /** The one placeholder of the instruction template. */
  const TypePlaceholder: string := "TYPE_OF_DATA"

  /** The template up to its placeholder, written as short literals joined together. */
  const TemplateHead: string :=
    "YOUR TASK:\n"
    + "Generate a function called "
    + "`fun_generated` that takes "
    + "the input 'data' (that is a "

  /** The template after its placeholder; the blank lines hold eight spaces each. */
  const TemplateTail: string :=
    ")) \n"
    + "and solves the problem "
    + "that the user is asking.\n"
    + "Only write the code without "
    + "any other comment or explanation.\n"
    + "        \n"
    + "Include the imports "
    + "neccesary to run the code.\n"
    + "        \n"
    + "THE CODE:\n"

  /** `TEMPLATE_PROMPT_INSTRUCTIONS`. */
  const TemplatePromptInstructions: string := TemplateHead + TypePlaceholder + TemplateTail

  const QuestionHeader: string := "The user has asked the following question: \n"
  const DescriptionHeader: string := "DESCRIPTION OF THE DATA:\n"

  /**
   `str(type(x))` for an object whose class has the plain `type` metaclass.
   `typeName` is the class's module-qualified name, `__module__ + "." +
   __qualname__` (for example `pandas.core.frame.DataFrame`), or the bare
   name for a builtin class such as `dict`.
   */
  function TypeRepr(typeName: string): (r: string)
    ensures |r| == |typeName| + 10 && r[..8] == "<class '" && r[|r| - 2..] == "'>"
    ensures OccursAt(r, typeName, 8)
  {
    assert ("<class '" + typeName + "'>")[8..8 + |typeName|] == typeName;
    "<class '" + typeName + "'>"
  }

  lemma TemplateHeadHasNoPlaceholderStart()
    ensures NoStartIn(TemplateHead, TypePlaceholder)
  {
    var p := TypePlaceholder;
    NoStartInConcat("YOUR TASK:\n", "Generate a function called ", p);
    NoStartInConcat("YOUR TASK:\n" + "Generate a function called ", "`fun_generated` that takes ", p);
    NoStartInConcat("YOUR TASK:\n" + "Generate a function called " + "`fun_generated` that takes ",
                    "the input 'data' (that is a ", p);
  }

  lemma TemplateTailHasNoPlaceholderStart()
    ensures NoStartIn(TemplateTail, TypePlaceholder)
  {
    var p := TypePlaceholder;
    var t := ")) \n";
    NoStartInConcat(t, "and solves the problem ", p);
    t := t + "and solves the problem ";
    NoStartInConcat(t, "that the user is asking.\n", p);
    t := t + "that the user is asking.\n";
    NoStartInConcat(t, "Only write the code without ", p);
    t := t + "Only write the code without ";
    NoStartInConcat(t, "any other comment or explanation.\n", p);
    t := t + "any other comment or explanation.\n";
    NoStartInConcat(t, "        \n", p);
    t := t + "        \n";
    NoStartInConcat(t, "Include the imports ", p);
    t := t + "Include the imports ";
    NoStartInConcat(t, "neccesary to run the code.\n", p);
    t := t + "neccesary to run the code.\n";
    NoStartInConcat(t, "        \n", p);
    t := t + "        \n";
    NoStartInConcat(t, "THE CODE:\n", p);
  }

  /**
   The module-qualified name can be read back from the prompt's type text:
   distinct names give distinct texts. Two classes that share a module and a
   qualified name, such as a class defined again in the same module, give the same text.
   */
  lemma TypeReprNamesTheClass(a: string, b: string)
    ensures TypeRepr(a) == TypeRepr(b) <==> a == b
  {
  }

  /**
   `TEMPLATE_PROMPT_INSTRUCTIONS.replace("TYPE_OF_DATA", t)` puts `t` where
   the single placeholder was and changes nothing else, whatever `t` holds.
   */
  lemma InstantiatedTemplate(t: string)
    ensures ReplaceAll(TemplatePromptInstructions, TypePlaceholder, t) == TemplateHead + t + TemplateTail
  {
    TemplateHeadHasNoPlaceholderStart();
    TemplateTailHasNoPlaceholderStart();
    ReplaceAllSingleOccurrence(TemplateHead, TypePlaceholder, TemplateTail, t);
  }

  /**
   `generate_query(text)` for a session whose description is `desc` and whose
   input data's class has the module-qualified name `dataType`: the question header and question, a blank
   line, the description header and description, then the template with the
   type of the data in place of its placeholder.
   */
  function GenerateQuery(question: string, desc: string, dataType: string): (prompt: string)
    ensures prompt == QuestionHeader + question + "\n\n" + DescriptionHeader + desc
                      + TemplateHead + TypeRepr(dataType) + TemplateTail
  {
    var tr := TypeRepr(dataType);
    InstantiatedTemplate(tr);
    QuestionHeader + question + "\n\n" + DescriptionHeader + desc
      + ReplaceAll(TemplatePromptInstructions, TypePlaceholder, tr)
  }

  /** Each framed part of a prompt-shaped concatenation is a substring of it. */
  lemma PartsOccur(qh: string, q: string, sep: string, dh: string, d: string, th: string, tr: string, tt: string)
    ensures Contains(qh + q + sep + dh + d + th + tr + tt, q)
    ensures Contains(qh + q + sep + dh + d + th + tr + tt, d)
    ensures Contains(qh + q + sep + dh + d + th + tr + tt, tr)
  {
    ContainsWhole(q);
    ContainsWhole(d);
    ContainsWhole(tr);
    assert qh + q + sep + dh + d + th + tr + tt == qh + q + (sep + dh + d + th + tr + tt);
    ContainsInPart(qh, q, sep + dh + d + th + tr + tt, q);
    assert qh + q + sep + dh + d + th + tr + tt == (qh + q + sep + dh) + d + (th + tr + tt);
    ContainsInPart(qh + q + sep + dh, d, th + tr + tt, d);
    assert qh + q + sep + dh + d + th + tr + tt == (qh + q + sep + dh + d + th) + tr + tt;
    ContainsInPart(qh + q + sep + dh + d + th, tr, tt, tr);
  }

  /** The prompt quotes the question, the description and the data's type verbatim. */
  lemma PromptMentionsInputs(question: string, desc: string, dataType: string)
    ensures Contains(GenerateQuery(question, desc, dataType), question)
    ensures Contains(GenerateQuery(question, desc, dataType), desc)
    ensures Contains(GenerateQuery(question, desc, dataType), dataType)
  {
    var tr := TypeRepr(dataType);
    PartsOccur(QuestionHeader, question, "\n\n", DescriptionHeader, desc, TemplateHead, tr, TemplateTail);
    assert Contains(tr, dataType);
    ContainsTransitive(GenerateQuery(question, desc, dataType), tr, dataType);
  }
}

=== FILE: slots.dfy ===
/**
 The artifact slot: the file `generated.py` and the module cached under the
 name `generated`, which every attempt shares, and `_clean_cache`, which
 empties it.
 */
module Slots {
  import opened Wrappers

  /**
   The contents of `generated.py` when the file exists, and the source text
   of the module cached as `sys.modules['generated']` when there is one.
   */
  datatype Slot = Slot(file: Option<string>, cached: Option<string>) {
    /** Neither a file nor a cached module is left to leak into the next attempt. */
    predicate IsEmpty() {
      file.None? && cached.None?
    }
  }

  const EmptySlot: Slot := Slot(None, None)

  /** The exceptions the two clean-up steps raise when there is nothing to remove. */
  datatype CleanupError = FileNotFoundError | KeyError

  /** `os.remove("generated.py")`: drops the file, raising when there is none. */
  function RemoveFile(s: Slot): (r: Result<Slot, CleanupError>)
    ensures r.Failure? <==> s.file.None?
    ensures r.Success? ==> r.value.file.None? && r.value.cached == s.cached
  {
    if s.file.None? then Failure(FileNotFoundError) else Success(s.(file := None))
  }

  /** `del sys.modules['generated']`: evicts the cached module, raising when there is none. */
  function EvictModule(s: Slot): (r: Result<Slot, CleanupError>)
    ensures r.Failure? <==> s.cached.None?
    ensures r.Success? ==> r.value.cached.None? && r.value.file == s.file
  {
    if s.cached.None? then Failure(KeyError) else Success(s.(cached := None))
  }

  /**
   `_clean_cache`: removes the file, then evicts the module, each inside a
   bare `try`/`except` that swallows the error. Whatever the slot held, it is
   left empty, and no error escapes.
   */
  function CleanCache(s: Slot): (r: Slot)
    ensures r.IsEmpty()
  {
    var removed := match RemoveFile(s)
      case Success(t) => t
      case Failure(_) => s;
    match EvictModule(removed)
    case Success(t) => t
    case Failure(_) => removed
  }
}

=== FILE: strings.dfy ===
/**
 Python's `str.replace(old, new)` over Dafny strings, and the substring
 vocabulary used to state what it does.
 */
module Strings {

  /** `pat` occurs in `s` starting at index `i`. */
  ghost predicate OccursAt(s: string, pat: string, i: int) {
    0 <= i && i + |pat| <= |s| && s[i..i + |pat|] == pat
  }

  /** `pat` is a substring of `s` (Python's `pat in s`). */
  ghost predicate Contains(s: string, pat: string) {
    exists i :: OccursAt(s, pat, i)
  }

  /** `s.replace("", rep)`: Python inserts `rep` before every character and at the end. */
  function Interleave(s: string, rep: string): (r: string)
    ensures |r| == |s| + (|s| + 1) * |rep|
    ensures forall i :: 0 <= i < |rep| ==> r[i] == rep[i]
  {
    if |s| == 0 then rep else rep + [s[0]] + Interleave(s[1..], rep)
  }

  /**
   `s.replace(pat, rep)`: scanning left to right, every occurrence of `pat`
   that does not overlap an earlier replaced one becomes `rep`. Replaced text
   is never rescanned.
   */
  function ReplaceAll(s: string, pat: string, rep: string): (r: string)
    ensures |pat| > 0 ==> forall c :: c in r ==> c in s || c in rep
    decreases |s|
  {
    if |pat| == 0 then Interleave(s, rep)
    else if |s| < |pat| then s
    else if s[..|pat|] == pat then rep + ReplaceAll(s[|pat|..], pat, rep)
    else [s[0]] + ReplaceAll(s[1..], pat, rep)
  }

  /** An occurrence in a suffix is an occurrence in the whole string. */
  lemma ContainsInSuffix(s: string, k: nat, pat: string)
    requires k <= |s| && Contains(s[k..], pat)
    ensures Contains(s, pat)
  {
    var i :| OccursAt(s[k..], pat, i);
    assert s[k..][i..i + |pat|] == s[k + i..k + i + |pat|];
    assert OccursAt(s, pat, k + i);
  }

  /** Replacing a pattern that does not occur leaves the string unchanged. */
  lemma {:induction false} ReplaceAllAbsent(s: string, pat: string, rep: string)
    requires |pat| > 0 && !Contains(s, pat)
    ensures ReplaceAll(s, pat, rep) == s
    decreases |s|
  {
    if |s| >= |pat| {
      assert !OccursAt(s, pat, 0);
      if Contains(s[1..], pat) {
        ContainsInSuffix(s, 1, pat);
      }
      ReplaceAllAbsent(s[1..], pat, rep);
      assert s == [s[0]] + s[1..];
    }
  }

  /**
   No occurrence of `pat` can start inside `a`: wherever `a` holds the first
   character of `pat`, the next character of `a` differs from the second one.
   */
  ghost predicate NoStartIn(a: string, pat: string)
    requires |pat| >= 2
  {
    forall i :: 0 <= i < |a| && a[i] == pat[0] ==> i + 1 < |a| && a[i + 1] != pat[1]
  }

  lemma NoStartInConcat(a: string, b: string, pat: string)
    requires |pat| >= 2 && NoStartIn(a, pat) && NoStartIn(b, pat)
    ensures NoStartIn(a + b, pat)
  {
  }

  /** A prefix in which no occurrence can start is copied through unchanged. */
  lemma {:induction false} ReplaceAllSkipsPrefix(a: string, rest: string, pat: string, rep: string)
    requires |pat| >= 2 && NoStartIn(a, pat)
    ensures ReplaceAll(a + rest, pat, rep) == a + ReplaceAll(rest, pat, rep)
    decreases |a|
  {
    var s := a + rest;
    if |a| == 0 {
      assert s == rest;
    } else {
      if |s| >= |pat| && a[0] == pat[0] {
        assert s[1] == a[1] != pat[1];
        assert s[..|pat|][1] != pat[1];
      }
      assert s[1..] == a[1..] + rest;
      assert NoStartIn(a[1..], pat) by {
        forall i | 0 <= i < |a[1..]| && a[1..][i] == pat[0]
          ensures i + 1 < |a[1..]| && a[1..][i + 1] != pat[1]
        {
          assert a[i + 1] == pat[0];
        }
      }
      ReplaceAllSkipsPrefix(a[1..], rest, pat, rep);
    }
  }

  /** A single occurrence framed by prefix and suffix in which no occurrence can start is the only one replaced. */
  lemma ReplaceAllSingleOccurrence(head: string, pat: string, tail: string, rep: string)
    requires |pat| >= 2 && NoStartIn(head, pat) && NoStartIn(tail, pat)
    ensures ReplaceAll(head + pat + tail, pat, rep) == head + rep + tail
  {
    assert head + pat + tail == head + (pat + tail);
    ReplaceAllSkipsPrefix(head, pat + tail, pat, rep);
    assert (pat + tail)[..|pat|] == pat;
    assert (pat + tail)[|pat|..] == tail;
    ReplaceAllSkipsPrefix(tail, [], pat, rep);
    assert tail + [] == tail;
  }

  /** An occurrence inside one part of a concatenation is an occurrence in the whole. */
  lemma ContainsInPart(a: string, b: string, c: string, pat: string)
    requires Contains(b, pat)
    ensures Contains(a + b + c, pat)
  {
    var i :| OccursAt(b, pat, i);
    assert (a + b + c)[|a| + i..|a| + i + |pat|] == b[i..i + |pat|];
    assert OccursAt(a + b + c, pat, |a| + i);
  }

  lemma ContainsWhole(pat: string)
    ensures Contains(pat, pat)
  {
    assert OccursAt(pat, pat, 0);
  }

  /** A substring of a substring is a substring. */
  lemma ContainsTransitive(a: string, b: string, c: string)
    requires Contains(a, b) && Contains(b, c)
    ensures Contains(a, c)
  {
    var i :| OccursAt(a, b, i);
    var j :| OccursAt(b, c, j);
    forall k | 0 <= k < |c|
      ensures a[i + j..i + j + |c|][k] == c[k]
    {
      assert c[k] == b[j..j + |c|][k] == b[j + k];
      assert b[j + k] == a[i..i + |b|][j + k] == a[i + j + k];
    }
    assert OccursAt(a, c, i + j);
  }
}

=== FILE: wrappers.dfy ===
/** Failure-carrying datatypes shared by the rest of the model. */
module Wrappers {

  /** A value that may be absent, as a Python attribute or dictionary entry may be. */
  datatype Option<+T> = None | Some(value: T)

  /** The outcome of a step that may raise: its value, or the error it raised. */
  datatype Result<+R, +E> = Success(value: R) | Failure(error: E)
}
